=== FILE: README.md ===
# Story writer server: a Dafny model of its story store

The server keeps "stories" on disk. Each story is a directory under a fixed
storage root. It holds three text documents (`text.md`, `characters.md`,
`locations.md`) and three image category directories
(`images/characters`, `images/locations`, `images/text`). Requests create,
rename, read, save, delete and list stories, and upload images into a
category.

This project models that store without a filesystem. The storage root is a
map from directory name to entry (`Store.Root`). An entry is either a story
directory (`Store.Story`) or some other file that sits in the root. A story
records which documents exist and what they hold. It also records whether
`images/` exists and, per existing category directory, the file names in
listing order. Each route handler is pure. The handlers that change the store
(create, rename, save, delete, upload) are functions from the root (and the
request fields) to an `Outcome`: the root afterwards and a reply. Read is a
function from the root to a reply alone, and listing is a method that returns
the story names. A reply is `Ok(value)` or one of the errors 400, 404, 409 or
500. Error replies leave the root unchanged.

Modules, following the structure of `server.js`:

- `Replies`: optional body fields, JavaScript truthiness of a field, the error
  classes with their status codes.
- `Names`: `safeName` and POSIX `path.basename`.
- `Decimal`: the decimal rendering of a millisecond timestamp, and its inverse.
- `Segments`: `join`, `split` and `map` over path segments.
- `Store`: the data model and `ensureStoryStructure`.
- `Routes`: the list, create, rename, read, save and delete handlers.
- `Uploads`: the multer `destination` and `filename` callbacks, and the upload
  handler with its URL.
- `Rimraf`: the fallback recursive delete, as a walk over a directory tree.

Inputs the server takes from its environment are parameters:

- `now: nat` is `Date.now()`.
- `enc: string -> string` is `encodeURIComponent`.
- `listing: seq<string>` is the order in which `readdirSync` returns the root's
  entries.

Behaviour of the code worth knowing, which the model follows:

- A resolved story path is not guaranteed to stay inside the storage root:
  `safeName` keeps `.`, `..` and the empty string. The model proves only that
  a sanitized name holds no separator (`Names.SafeNameHasNoSeparator`).
- Save also rejects empty content, because `!content` is true for `""`.
- Read returns an `images` object with no keys at all when `images/` is
  missing. When `images/` exists, every category is present, with an empty
  list for a category directory that is missing or empty.
- Rename replies with the new name as the client sent it, not sanitized.
- The upload URL percent-encodes the story segment. The URLs the read handler
  lists do not. The two agree when the encoder leaves the story name, the fixed
  segments and the category unchanged (`Uploads.UploadUrlMatchesListing`).
- An upload to a story that does not exist creates the story directory
  (`mkdirSync` with `recursive`) but no documents. From then on the name is
  listed, but reading it fails with 500 (`Uploads.UploadToMissingStory`).

## Model

| member | source | states |
|---|---|---|
| Names.SafeName | server.js:24-27 | the result has the input's length; each reserved character (slash, backslash, `?`, `%`, `*`, colon, vertical bar, double quote, `<`, `>`) becomes `-` and every other character is kept; no reserved character remains |
| Names.SafeNameHasNoSeparator | server.js:29-31 | a sanitized story name contains neither `/` nor `\` |
| Names.SafeNameFixesExactlyClean | server.js:24-27 | sanitizing leaves a string unchanged if and only if it holds no reserved character |
| Names.SafeNameIdempotent | server.js:71-72 | sanitizing twice equals sanitizing once, so `storyPath(safeName(name))` names the same story as `storyPath(name)` |
| Names.StripTrailingSlashes | server.js:161 | `path.basename` first drops trailing slashes: the result is a prefix of the input, does not end in `/`, and only slashes were dropped |
| Names.LastSegment | server.js:161 | the base name is the longest slash-free suffix: it has no `/` and is preceded by `/` whenever it is shorter than the input |
| Names.BasenameIsSegment | server.js:161 | the base name of an uploaded file's original name has no `/`, is a contiguous piece of that name, and equals the name when the name has no `/` |
| Decimal.Dec | server.js:162 | the timestamp renders as a non-empty string of decimal digits with no leading zero (only 0 itself starts with `0`) |
| Decimal.ParseDecOfDec | server.js:162 | reading the rendered timestamp back gives the timestamp |
| Decimal.DecInjective | server.js:162 | distinct timestamps render differently |
| Segments.Split | server.js:173 | `split` gives at least one piece, no piece contains the separator, and joining the pieces with the separator gives back the input |
| Segments.Map | server.js:173 | `map(encodeURIComponent)` encodes each segment in place, keeping the count |
| Segments.SplitJoin | server.js:173 | splitting a join of separator-free segments gives back exactly those segments |
| Store.ParseTextFile | server.js:135 | a `file` field is accepted as document `f` exactly when it is `f`'s file name |
| Store.ParseCategory | server.js:153-154 | a `type` field names category `c` exactly when it is `c`'s directory name |
| Store.Filled | server.js:38-52 | filling in a story makes every document and category directory exist, keeps every existing document and listing as it was, creates missing documents empty, and leaves each category listing unchanged |
| Store.FilledFixesExactlyComplete | server.js:33-53 | the structure step changes a story if and only if something in its layout is missing |
| Store.FilledIdempotent | server.js:33-53 | running the structure step on its own result changes nothing |
| Store.FilledBareIsEmpty | server.js:35-52 | on a newly made directory, the structure step gives three empty documents and three empty categories |
| Store.EnsureStoryStructure | server.js:33-53 | fails exactly when a plain file sits at the story path; otherwise the story becomes complete, keeps all existing content, has the missing documents empty, and no other entry of the root changes |
| Store.EnsureStoryStructureIdempotent | server.js:33-53 | calling `ensureStoryStructure` a second time returns the same root as the first call |
| Routes.ListStories | server.js:56-65 | the listed names are exactly the directories of the root, each once, in the order the directory listing returned them |
| Routes.Create | server.js:68-82 | a missing or empty name gives 400; an existing entry under the sanitized name gives 409 with the root unchanged; otherwise exactly one entry is added, an empty complete story under the sanitized name, and that name is returned |
| Routes.Rename | server.js:85-99 | the checks run in order: new name (400), then source (404), then target (409); each error leaves the root unchanged; success moves the entry unchanged to the new key, removes the old key, keeps every other entry, and echoes the unsanitized new name |
| Routes.ImageUrls | server.js:118 | one URL per stored file, in listing order, each `/stories/<safe name>/images/<category>/<encoded file>` |
| Routes.Read | server.js:102-126 | a missing entry gives 404; a missing document gives 500; otherwise the reply echoes the requested name, returns the three documents, has no image keys when `images/` is missing, and otherwise lists every category's URLs (empty for a missing category directory) |
| Routes.Save | server.js:129-146 | a missing or falsy `file` or `content` gives 400, and an unknown `file` gives 400, both before the 404 existence check; a plain file gives 500; success replaces exactly that document; other documents, images and stories are unchanged; every failure leaves the root unchanged |
| Routes.Delete | server.js:178-204 | a missing entry gives 404; otherwise exactly that entry is removed and every other entry is unchanged |
| Routes.CreateThenRead | server.js:68-82 | a created story is listed, and reading it gives three empty documents and an empty list for each category |
| Routes.CreateThenDelete | server.js:178-204 | deleting a story right after creating it restores the root exactly |
| Routes.SaveThenRead | server.js:129-146 | after a save, a read returns the saved content for that document and the earlier content for the other documents and the images |
| Routes.SaveTwiceLastWins | server.js:141 | saving twice to one document leaves the same root and reply as saving only the second content |
| Routes.RenameThenRead | server.js:91-95 | after a rename the old name reads as 404, and the new name reads exactly when the old one did, with the same documents |
| Routes.RenameBack | server.js:85-99 | renaming a story back to its original name restores the root exactly |
| Routes.RenameOntoSameKeyConflicts | server.js:92 | a new name that sanitizes to the story's own key gives 409 and leaves the root unchanged |
| Routes.DeleteThenRead | server.js:178-204 | after a delete the name is neither listed nor readable (404) |
| Routes.CreateSanitizesName | server.js:70-78 | creating `a/b?c` creates and returns `a-b-c` |
| Routes.MyStoryIsClean | server.js:24-27 | the name `My Story` contains no reserved character, so sanitizing leaves it unchanged |
| Routes.CreateSaveReadScenario | server.js:68-146 | creating `My Story`, saving `Once upon a time` to `text.md` and reading the story returns that text |
| Uploads.UploadCategory | server.js:152-154 | a `type` field that names a category selects that category; any other value, or no value, selects `text` |
| Uploads.StoredFilename | server.js:159-163 | the stored name contains no reserved character, so it is a single path segment |
| Uploads.TimestampPrefixUnique | server.js:162 | the timestamp at the front of `<timestamp>-<name>` is determined by the whole string |
| Uploads.StoredFilenamesDistinct | server.js:159-163 | uploads at distinct instants get distinct stored names, whatever their original names |
| Uploads.WithCategoryDir | server.js:155-156 | creating the destination directory makes `images/` and the category directory exist and changes no document or listing |
| Uploads.AddImage | server.js:157-162 | after the file is written, the category holds exactly its earlier names and the stored name, with at most one name added, and the listing is unchanged when the stored name was already there; in the model's creation-order listing the earlier names come first; other categories and the documents are unchanged |
| Uploads.Uploaded | server.js:150-163 | storing an upload makes the chosen category hold exactly its earlier names and the stored name (at most one name added, none when the stored name was already listed), and changes no other listing and no document |
| Uploads.UploadUrlSegments | server.js:172-173 | the upload URL is `/` followed by the five encoded segments `stories`, story, `images`, category and stored name, joined with `/` |
| Uploads.UploadUrlMatchesListing | server.js:171-173 | when the encoder leaves the story name, `stories`, `images` and the category unchanged, the upload URL is the URL the read handler lists for the stored file |
| Uploads.Upload | server.js:168-175 | no file gives 400; a plain file at the story path gives 500; otherwise the file is stored under `<timestamp>-<clean base name>` in the chosen category of the sanitized story (created if missing), the category then holds exactly its earlier names and the stored name (at most one added, and the listing is unchanged when the stored name was already there), the other categories and the documents are kept, no other entry changes, and the reply is the upload URL |
| Uploads.UploadTwiceKeepsBoth | server.js:159-163 | two uploads of the same original name at distinct instants are both listed, under distinct names |
| Uploads.KeptAfterUpload | server.js:155-162 | a file already listed in the category stays listed after another upload into it |
| Uploads.UploadThenRead | server.js:168-175 | an upload into a readable story is listed by the next read under the URL the read handler builds for the stored file |
| Uploads.UploadToMissingStory | server.js:155-156 | an upload to a missing story succeeds and makes the name listed, but reading it then fails with 500 |
| Rimraf.Remove | server.js:188-198 | on a plain-file entry the walk fails before removing anything (`readdirSync` throws); on a directory it unlinks exactly the non-directories beneath it, removes exactly its directories, and its last call removes the path itself |
| Rimraf.RemovePostOrder | server.js:188-198 | the walk on a directory removes each directory only after every call inside it, and acts only under the deleted path |
| Rimraf.RemoveTreeCovers | server.js:188-198 | for one entry of the loop (a file is unlinked, a directory is walked), exactly the non-directories of the entry are unlinked and exactly its directories removed: nothing is left and nothing outside is touched |
| Rimraf.RemoveAllCovers | server.js:190-194 | the loop over a directory's entries removes exactly the files and directories beneath them |
| Rimraf.RemoveTreePostOrder | server.js:188-198 | every directory is removed after every call on a path inside it, all calls stay under the deleted path, and the last call removes that path itself |
| Rimraf.RemoveAllPostOrder | server.js:190-194 | the entry loop keeps post-order and acts only under the entries' own names |
| Replies.Present | server.js:70 | definition of JavaScript truthiness of a body field (`!name`, `!newName` at server.js:88, `!file or !content` at server.js:132); its meaning is stated by the 400 clauses of `Routes.Create`, `Routes.Rename` and `Routes.Save` |
| Names.Basename | server.js:161 | definition of POSIX `path.basename` as the last segment after trailing slashes are dropped; its meaning is stated by `Names.StripTrailingSlashes`, `Names.LastSegment` and `Names.BasenameIsSegment` |
| Segments.Join | server.js:172-173 | definition of `path.join` on separator-free segments and of `.join('/')`; its meaning is stated by `Segments.Split` and `Segments.SplitJoin` |
| Uploads.UploadUrl | server.js:172-173 | definition of the upload URL (join, split at the separator, encode each segment, join with `/` after a leading `/`); its meaning is stated by `Uploads.UploadUrlSegments` and `Uploads.UploadUrlMatchesListing` |
| Routes.ImageLists | server.js:110-121 | definition of the reply's `images` object; its meaning is stated by `Routes.Read` (no keys without `images/`, otherwise every category's URLs) |
| Rimraf.RemoveTree | server.js:188-198 | definition of one entry of the walk (a non-directory is unlinked, a directory is walked and then removed); its meaning is stated by `Rimraf.RemoveTreeCovers` and `Rimraf.RemoveTreePostOrder` |
| Rimraf.RemoveAll | server.js:190-194 | definition of the loop over a directory's entries in listing order; its meaning is stated by `Rimraf.RemoveAllCovers` and `Rimraf.RemoveAllPostOrder` |

## Left out

- HTTP plumbing is not modelled: Express, cors, JSON body parsing, static serving, the port and `listen`. It is framework setup with no story logic.
- Multer's multipart parsing and byte streaming are not modelled. An upload is "a file with this original name arrived, and the `type` field had this value". Multer fills `req.body` in stream order, so `type` is whatever had arrived before the file part.
- Image contents are not modelled. A same-name upload in the same millisecond overwrites the file, and the model records that as an unchanged listing.
- Filesystem I/O failures (permissions, full disk, a category path that is a plain file) are not modelled. The 500s in the model come from a plain file where a story directory is expected (read, save, upload, and the fallback delete walk) and from a story directory that lacks a document (read). Apart from the name limits in the next line, the 500 paths of list, create and rename are therefore unreachable.
- Which names the filesystem accepts, and which names it treats as equal, is not modelled. Root keys are exact Dafny strings. A name holding a NUL character or longer than the filesystem's name limit makes `existsSync` report false and `mkdirSync` throw, so the server answers create with 500 where the model adds the story. On a case-insensitive filesystem (the macOS and Windows defaults) `Foo` and `foo` are one directory, so a second create answers 409 where the model adds a second story. JavaScript strings are UTF-16, and a lone surrogate cannot be a Dafny `char`; Node writes it to disk as U+FFFD, so distinct request names can share one directory.
- `path.join` normalisation is not modelled. A story name that sanitizes to `""`, `.` or `..` is an ordinary key in the model. On disk it would resolve to the root or its parent.
- Windows path semantics are not modelled (`\` as the separator in `basename` and `path.sep`). The model follows POSIX.
- `Date.now()` and `encodeURIComponent` are parameters. Clock behaviour and percent-encoding tables are not modelled. Timestamps of 10^21 ms or more would print in exponent form; this is not modelled.
- Body fields are modelled as absent or as strings. A JSON body that holds a number or object in `name`, `newName`, `file` or `content` is not modelled.
- Concurrency between requests is not modelled.
- The runtime check between `fs.rmSync` and the fallback is not modelled. `Routes.Delete` removes the entry in one step. The fallback walk is modelled separately on a directory tree (`Rimraf`). With `fs.rmSync` a plain-file entry is removed; the fallback walk fails on it instead (`Rimraf.Remove` returns no calls), and the handler answers 500. The tree of one particular story is not derived from `Store.Story`, because the order of a story directory's listing is not known.
- The `lstat` symlink distinction is reduced to "directory or not". A symbolic link below the story path is a leaf that the loop unlinks. A story path that is itself a symbolic link is not modelled: `existsSync` and `readdirSync` follow it, so the walk would empty the link's target and then fail at `rmdirSync`, whereas `Rimraf.Remove` treats every non-directory there as a leaf and returns no calls.
- The order of a category listing is not modelled as the server sees it. `readdirSync` returns a directory's names in a filesystem-defined order, and on hash-ordered directories a new name can land before older ones. The model keeps each category listing in creation order (`Uploads.AddImage` appends), so facts about positions in a listing (the prefix clauses of `Uploads.AddImage`, `Uploads.Uploaded` and `Uploads.Upload`, and the order of `Routes.ImageUrls`) describe the model, not the server. Which names are listed does not depend on this.

=== FILE: decimal.dfy ===
/** The decimal rendering of a millisecond timestamp, as JavaScript's
    `Date.now() + '-'` produces it, and its inverse. */
module Decimal {

  predicate IsDigit(c: char)
  {
    '0' <= c <= '9'
  }

  function DigitChar(d: nat): (c: char)
    requires d < 10
  {
    ('0' as int + d) as char
  }

  function DigitValue(c: char): nat
    requires IsDigit(c)
  {
    c as int - '0' as int
  }

  /** The shortest decimal numeral of `n` (no leading zeros). */
  function Dec(n: nat): (r: string)
    ensures |r| > 0
    ensures forall i :: 0 <= i < |r| ==> IsDigit(r[i])
    ensures n > 0 ==> r[0] != '0'
  {
    if n < 10 then [DigitChar(n)] else Dec(n / 10) + [DigitChar(n % 10)]
  }

  /** The value of a numeral, most significant digit first. */
  function ParseDec(s: string): nat
    requires forall i :: 0 <= i < |s| ==> IsDigit(s[i])
  {
    if s == [] then 0 else ParseDec(s[..|s| - 1]) * 10 + DigitValue(s[|s| - 1])
  }

  /** Reading back a rendered timestamp gives the timestamp. */
  lemma {:induction false} ParseDecOfDec(n: nat)
    ensures ParseDec(Dec(n)) == n
  {
    var s := Dec(n);
    if n < 10 {
      assert s[..0] == [];
    } else {
      assert s[..|s| - 1] == Dec(n / 10);
      ParseDecOfDec(n / 10);
    }
  }

  /** Distinct timestamps render as distinct numerals. */
  lemma DecInjective(a: nat, b: nat)
    requires a != b
    ensures Dec(a) != Dec(b)
  {
    ParseDecOfDec(a);
    ParseDecOfDec(b);
  }
}

=== FILE: names.dfy ===
/** Sanitization of untrusted names (`safeName` in server.js) and the POSIX
    `path.basename` applied to the original name of an uploaded file. */
module Names {

  /** The characters `safeName` replaces: the path separators and the
      characters reserved on common filesystems. */
  const Reserved: set<char> := {'/', '\\', '?', '%', '*', ':', '|', '"', '<', '>'}

  function SafeChar(c: char): char
  {
    if c in Reserved then '-' else c
  }

  /** A string in which no reserved character occurs. */
  predicate Clean(s: string)
  {
    forall i :: 0 <= i < |s| ==> s[i] !in Reserved
  }

  /** The global replacement `name.replace(/[/\\?%*:|"<>]/g, '-')`: every
      reserved character becomes a hyphen, every other character stays put. */
  function SafeName(s: string): (r: string)
    ensures |r| == |s|
    ensures forall i :: 0 <= i < |s| ==> r[i] == (if s[i] in Reserved then '-' else s[i])
    ensures Clean(r)
  {
    if s == [] then [] else [SafeChar(s[0])] + SafeName(s[1..])
  }

  /** A sanitized name is a single path segment: neither separator survives. */
  lemma SafeNameHasNoSeparator(s: string)
    ensures '/' !in SafeName(s) && '\\' !in SafeName(s)
  {
  }

  /** Sanitizing is the identity exactly on clean strings. */
  lemma SafeNameFixesExactlyClean(s: string)
    ensures SafeName(s) == s <==> Clean(s)
  {
    if Clean(s) {
      assert forall i :: 0 <= i < |s| ==> SafeName(s)[i] == s[i];
    }
  }

  /** Sanitizing twice is sanitizing once, so a name the server already
      sanitized keys the same story when it is sanitized again. */
  lemma SafeNameIdempotent(s: string)
    ensures SafeName(SafeName(s)) == SafeName(s)
  {
    SafeNameFixesExactlyClean(SafeName(s));
  }

  /** The prefix of `p` left after dropping its trailing slashes. */
  function StripTrailingSlashes(p: string): (r: string)
    ensures r <= p
    ensures r == [] || r[|r| - 1] != '/'
    ensures forall i :: |r| <= i < |p| ==> p[i] == '/'
  {
    if p != [] && p[|p| - 1] == '/' then StripTrailingSlashes(p[..|p| - 1]) else p
  }

  /** The longest suffix of `q` that holds no slash. */
  function LastSegment(q: string): (r: string)
    ensures |r| <= |q| && q[|q| - |r|..] == r
    ensures '/' !in r
    ensures |r| < |q| ==> q[|q| - |r| - 1] == '/'
  {
    if q == [] || q[|q| - 1] == '/' then [] else LastSegment(q[..|q| - 1]) + [q[|q| - 1]]
  }

  /** Node's POSIX `path.basename(p)`: trailing slashes are ignored and the
      last segment that remains is the result ("a/b/" gives "b", "/" gives ""). */
  function Basename(p: string): (r: string)
  {
    LastSegment(StripTrailingSlashes(p))
  }

  /** The base name holds no slash, is a segment of the input, and a name
      without any slash is its own base name. */
  lemma BasenameIsSegment(p: string)
    ensures '/' !in Basename(p)
    ensures exists i, j :: 0 <= i <= j <= |p| && Basename(p) == p[i..j]
    ensures '/' !in p ==> Basename(p) == p
  {
    var q := StripTrailingSlashes(p);
    var r := LastSegment(q);
    assert r == p[|q| - |r|..|q|];
    if '/' !in p {
      assert |q| == |p|;
      assert |r| == |q|;
    }
  }
}

=== FILE: replies.dfy ===
/** The reply shapes shared by every request handler of the story server:
    optional body fields, the HTTP error taxonomy and success-or-error replies. */
module Replies {

  /** A request-body field that may be absent. */
  datatype Option<+T> = None | Some(value: T)

  /** The error classes a handler answers with, by HTTP status: 400
      (`BadRequest`), 404 (`NotFound`), 409 (`Conflict`) and 500
      (`StorageError`). Each carries the message the server puts in
      `{ok: false, error: message}`; storage failures (an exception thrown by
      a filesystem call) are collapsed into one case. */
  datatype Error =
    | BadRequest(message: string)
    | NotFound(message: string)
    | Conflict(message: string)
    | StorageError

  /** What a handler sends back: `{ok: true, ...}` carrying a value, or an error. */
  datatype Reply<+T> = Ok(value: T) | Fail(error: Error)

  /** JavaScript truthiness of an optional string field: an absent field and
      the empty string are both falsy. */
  predicate Present(field: Option<string>)
  {
    field.Some? && field.value != ""
  }
}

=== FILE: rimraf.dfy ===
/** The fallback recursive delete of server.js (`rimraf`), used where the
    runtime offers no recursive `fs.rmSync`: a depth-first walk that
    unlinks every non-directory and removes each directory once its
    contents are gone. */
module Rimraf {
  import opened Replies

  /** A directory tree as the walk sees it: `lstat` separates directories
      from everything else (plain files and symbolic links alike). */
  datatype Node = Leaf(name: string) | Dir(name: string, children: seq<Node>)

  /** One filesystem call of the walk, with the path it acts on as segments. */
  datatype Removal = Unlink(path: seq<string>) | Rmdir(path: seq<string>)

  /** The names in a directory listing are pairwise distinct, at every level. */
  predicate WellFormed(n: Node)
  {
    match n
    case Leaf(_) => true
    case Dir(_, cs) =>
      && (forall i, j :: 0 <= i < j < |cs| ==> cs[i].name != cs[j].name)
      && (forall i :: 0 <= i < |cs| ==> WellFormed(cs[i]))
  }

  /** `rimraf(p)` as the delete handler calls it, on the entry `n` at `p`.
      `readdirSync` throws ENOTDIR on a non-directory, so a plain-file entry
      fails (the handler answers 500) before anything is removed. A
      directory is removed completely: every non-directory beneath it is
      unlinked, every directory in it (itself included) is removed, and the
      last call removes `p`. */
  function Remove(p: seq<string>, n: Node): (r: Option<seq<Removal>>)
    ensures r.None? <==> n.Leaf?
    ensures r.Some? ==>
      && Unlinked(r.value) == LeafPaths(p, n)
      && Rmdired(r.value) == DirPaths(p, n)
      && |r.value| > 0 && r.value[|r.value| - 1] == Rmdir(p)
  {
    match n
    case Leaf(_) => None
    case Dir(_, _) =>
      RemoveTreeCovers(p, n);
      Some(RemoveTree(p, n))
  }

  /** One entry of the walk at path `p`: the loop unlinks a non-directory
      and hands a directory to `rimraf` recursively. */
  function RemoveTree(p: seq<string>, n: Node): seq<Removal>
    decreases n
  {
    match n
    case Leaf(_) => [Unlink(p)]
    case Dir(_, cs) => RemoveAll(p, cs) + [Rmdir(p)]
  }

  /** The loop over the entries of the directory at `p`, in listing order. */
  function RemoveAll(p: seq<string>, cs: seq<Node>): seq<Removal>
    decreases cs
  {
    if cs == [] then [] else RemoveTree(p + [cs[0].name], cs[0]) + RemoveAll(p, cs[1..])
  }

  /** The paths of the non-directories of the tree at `p`. */
  function LeafPaths(p: seq<string>, n: Node): set<seq<string>>
    decreases n
  {
    match n
    case Leaf(_) => {p}
    case Dir(_, cs) => LeafPathsAll(p, cs)
  }

  function LeafPathsAll(p: seq<string>, cs: seq<Node>): set<seq<string>>
    decreases cs
  {
    if cs == [] then {} else LeafPaths(p + [cs[0].name], cs[0]) + LeafPathsAll(p, cs[1..])
  }

  /** The paths of the directories of the tree at `p`, itself included. */
  function DirPaths(p: seq<string>, n: Node): set<seq<string>>
    decreases n
  {
    match n
    case Leaf(_) => {}
    case Dir(_, cs) => {p} + DirPathsAll(p, cs)
  }

  function DirPathsAll(p: seq<string>, cs: seq<Node>): set<seq<string>>
    decreases cs
  {
    if cs == [] then {} else DirPaths(p + [cs[0].name], cs[0]) + DirPathsAll(p, cs[1..])
  }

  /** The paths a sequence of calls unlinks. */
  function Unlinked(ops: seq<Removal>): set<seq<string>>
  {
    if ops == [] then {} else (if ops[0].Unlink? then {ops[0].path} else {}) + Unlinked(ops[1..])
  }

  /** The paths a sequence of calls removes as directories. */
  function Rmdired(ops: seq<Removal>): set<seq<string>>
  {
    if ops == [] then {} else (if ops[0].Rmdir? then {ops[0].path} else {}) + Rmdired(ops[1..])
  }

  lemma {:induction false} RemovedConcat(a: seq<Removal>, b: seq<Removal>)
    ensures Unlinked(a + b) == Unlinked(a) + Unlinked(b)
    ensures Rmdired(a + b) == Rmdired(a) + Rmdired(b)
  {
    if a != [] {
      assert (a + b)[1..] == a[1..] + b;
      RemovedConcat(a[1..], b);
    } else {
      assert a + b == b;
    }
  }

  /** Nothing is left behind and nothing else is touched: the walk unlinks
      exactly the non-directories of the tree and removes exactly its
      directories. */
  lemma {:induction false} RemoveTreeCovers(p: seq<string>, n: Node)
    ensures Unlinked(RemoveTree(p, n)) == LeafPaths(p, n)
    ensures Rmdired(RemoveTree(p, n)) == DirPaths(p, n)
    decreases n
  {
    match n
    case Leaf(_) =>
      assert RemoveTree(p, n)[1..] == [];
    case Dir(_, cs) =>
      RemoveAllCovers(p, cs);
      RemovedConcat(RemoveAll(p, cs), [Rmdir(p)]);
      assert [Rmdir(p)][1..] == [];
  }

  lemma {:induction false} RemoveAllCovers(p: seq<string>, cs: seq<Node>)
    ensures Unlinked(RemoveAll(p, cs)) == LeafPathsAll(p, cs)
    ensures Rmdired(RemoveAll(p, cs)) == DirPathsAll(p, cs)
    decreases cs
  {
    if cs != [] {
      RemoveTreeCovers(p + [cs[0].name], cs[0]);
      RemoveAllCovers(p, cs[1..]);
      RemovedConcat(RemoveTree(p + [cs[0].name], cs[0]), RemoveAll(p, cs[1..]));
    }
  }

  /** Post-order: a directory is removed only after every call on a path
      inside it. */
  predicate PostOrder(ops: seq<Removal>)
  {
    forall i, j :: 0 <= i < |ops| && 0 <= j < |ops| && ops[i].Rmdir? && ops[i].path < ops[j].path ==> j < i
  }

  lemma PostOrderConcat(a: seq<Removal>, b: seq<Removal>)
    requires PostOrder(a) && PostOrder(b)
    requires forall i, j :: 0 <= i < |a| && 0 <= j < |b| && a[i].Rmdir? ==> !(a[i].path < b[j].path)
    ensures PostOrder(a + b)
  {
    var ops := a + b;
    forall i, j | 0 <= i < |ops| && 0 <= j < |ops| && ops[i].Rmdir? && ops[i].path < ops[j].path
      ensures j < i
    {
      if i >= |a| && j >= |a| {
        assert ops[i] == b[i - |a|] && ops[j] == b[j - |a|];
      }
    }
  }

  /** The walk over one tree removes it in post-order, acts only inside
      `p`, and its last call removes `p` itself when `p` is a directory. */
  lemma {:induction false} RemoveTreePostOrder(p: seq<string>, n: Node)
    requires WellFormed(n)
    ensures var ops := RemoveTree(p, n);
      && PostOrder(ops)
      && (forall k :: 0 <= k < |ops| ==> p <= ops[k].path)
      && (n.Dir? ==> ops[|ops| - 1] == Rmdir(p))
    decreases n
  {
    match n
    case Leaf(_) =>
    case Dir(_, cs) =>
      RemoveAllPostOrder(p, cs);
      PostOrderConcat(RemoveAll(p, cs), [Rmdir(p)]);
      var ops := RemoveTree(p, n);
      assert forall k :: 0 <= k < |RemoveAll(p, cs)| ==> ops[k] == RemoveAll(p, cs)[k];
  }

  lemma {:induction false} RemoveAllPostOrder(p: seq<string>, cs: seq<Node>)
    requires forall i, j :: 0 <= i < j < |cs| ==> cs[i].name != cs[j].name
    requires forall i :: 0 <= i < |cs| ==> WellFormed(cs[i])
    ensures var ops := RemoveAll(p, cs);
      && PostOrder(ops)
      && (forall k :: 0 <= k < |ops| ==> p < ops[k].path && exists i :: 0 <= i < |cs| && ops[k].path[|p|] == cs[i].name)
    decreases cs
  {
    if cs != [] {
      var q := p + [cs[0].name];
      var a := RemoveTree(q, cs[0]);
      var b := RemoveAll(p, cs[1..]);
      RemoveTreePostOrder(q, cs[0]);
      RemoveAllPostOrder(p, cs[1..]);
      PostOrderConcat(a, b);
      var ops := a + b;
      forall k | 0 <= k < |ops|
        ensures p < ops[k].path && exists i :: 0 <= i < |cs| && ops[k].path[|p|] == cs[i].name
      {
        if k < |a| {
          assert ops[k] == a[k];
          assert ops[k].path[|p|] == cs[0].name;
        } else {
          assert ops[k] == b[k - |a|];
          var m :| 0 <= m < |cs[1..]| && b[k - |a|].path[|p|] == cs[1..][m].name;
          assert cs[1..][m] == cs[m + 1];
        }
      }
    }
  }

  /** The delete handler's walk removes a directory in post-order and acts
      only inside it. */
  lemma RemovePostOrder(p: seq<string>, n: Node)
    requires WellFormed(n)
    ensures Remove(p, n).Some? ==>
      && PostOrder(Remove(p, n).value)
      && (forall k :: 0 <= k < |Remove(p, n).value| ==> p <= Remove(p, n).value[k].path)
  {
    if n.Dir? {
      RemoveTreePostOrder(p, n);
    }
  }
}

=== FILE: routes.dfy ===
/** The story routes of server.js (list, create, rename, read, save,
    delete) as transitions of the storage root. Each handler returns the
    root afterwards together with its reply; every error leaves the root
    as it was. */
module Routes {
  import opened Replies
  import opened Names
  import opened Store

  /** The storage root after a request, and the reply sent. */
  datatype Outcome<+T> = Outcome(after: Root, reply: Reply<T>)

  /** The names `GET /api/stories` reports: directories of the root. */
  predicate IsListed(root: Root, x: string)
  {
    x in root && root[x].StoryDir?
  }

  /** `GET /api/stories`: keep the directories of the root's listing, in
      listing order. `listing` is what reading the root directory yields:
      every entry name once, in an order the platform chooses. The ghost
      `from` gives the listing position each reported name came from. */
  method ListStories(root: Root, listing: seq<string>) returns (names: seq<string>, ghost from: seq<nat>)
    requires forall x :: x in listing <==> x in root
    requires forall i, j :: 0 <= i < j < |listing| ==> listing[i] != listing[j]
    ensures forall x :: x in names <==> IsListed(root, x)
    ensures forall k, l :: 0 <= k < l < |names| ==> names[k] != names[l]
    ensures |from| == |names|
    ensures forall k :: 0 <= k < |names| ==> from[k] < |listing| && listing[from[k]] == names[k]
    ensures forall k, l :: 0 <= k < l < |names| ==> from[k] < from[l]
  {
    names, from := [], [];
    var i := 0;
    while i < |listing|
      invariant 0 <= i <= |listing|
      invariant |from| == |names|
      invariant forall k :: 0 <= k < |names| ==> from[k] < i && listing[from[k]] == names[k]
      invariant forall k, l :: 0 <= k < l < |names| ==> from[k] < from[l]
      invariant forall x :: x in names <==> x in listing[..i] && IsListed(root, x)
    {
      var x := listing[i];
      if x in root && root[x].StoryDir? {
        names, from := names + [x], from + [i];
      }
      assert listing[..i + 1] == listing[..i] + [x];
      i := i + 1;
    }
    assert listing[..i] == listing;
  }

  /** `POST /api/stories {name}`: a missing or empty name is a bad request;
      an existing entry under the sanitized name is a conflict; otherwise a
      complete empty story is created and the sanitized name is returned. */
  function Create(root: Root, name: Option<string>): (r: Outcome<string>)
    ensures !Present(name) ==> r == Outcome(root, Fail(BadRequest("name is required")))
    ensures Present(name) && SafeName(name.value) in root ==>
      r == Outcome(root, Fail(Conflict("story already exists")))
    ensures Present(name) && SafeName(name.value) !in root ==>
      && r.reply == Ok(SafeName(name.value))
      && r.after.Keys == root.Keys + {SafeName(name.value)}
      && r.after[SafeName(name.value)] == StoryDir(EmptyStory)
      && SameExcept(root, r.after, SafeName(name.value))
  {
    if !Present(name) then Outcome(root, Fail(BadRequest("name is required")))
    else
      var nm := SafeName(name.value);
      SafeNameIdempotent(name.value);
      // the handler looks up storyPath(nm), which sanitizes nm once more
      if SafeName(nm) in root then Outcome(root, Fail(Conflict("story already exists")))
      else
        FilledBareIsEmpty();
        Outcome(EnsureStoryStructure(root, nm).value, Ok(nm))
  }

  /** `POST /api/stories/:name/rename {newName}`: the new name is checked
      first, then the source, then the target; on success the entry moves
      unchanged to the sanitized new name and the reply echoes the new name
      as the client sent it. */
  function Rename(root: Root, oldName: string, newName: Option<string>): (r: Outcome<string>)
    ensures !Present(newName) ==> r == Outcome(root, Fail(BadRequest("newName is required")))
    ensures Present(newName) && SafeName(oldName) !in root ==>
      r == Outcome(root, Fail(NotFound("story not found")))
    ensures Present(newName) && SafeName(oldName) in root && SafeName(newName.value) in root ==>
      r == Outcome(root, Fail(Conflict("target name already exists")))
    ensures r.reply.Ok? <==> Present(newName) && SafeName(oldName) in root && SafeName(newName.value) !in root
    ensures r.reply.Ok? ==>
      && r.reply.value == newName.value
      && SafeName(newName.value) in r.after
      && r.after[SafeName(newName.value)] == root[SafeName(oldName)]
      && SafeName(oldName) !in r.after
      && r.after - {SafeName(newName.value)} == root - {SafeName(oldName)}
  {
    if !Present(newName) then Outcome(root, Fail(BadRequest("newName is required")))
    else
      var from := SafeName(oldName);
      var to := SafeName(newName.value);
      if from !in root then Outcome(root, Fail(NotFound("story not found")))
      else if to in root then Outcome(root, Fail(Conflict("target name already exists")))
      else Outcome((root - {from})[to := root[from]], Ok(newName.value))
  }

  /** What `GET /api/stories/:name` answers: the name as requested, the
      three documents, and per category the public URLs of its images. */
  datatype StoryView = StoryView(
    name: string, text: string, characters: string, locations: string,
    images: map<Category, seq<string>>)

  /** The document `f` of a story view. */
  function Document(v: StoryView, f: TextFile): string
  {
    match f
    case TextMd => v.text
    case CharactersMd => v.characters
    case LocationsMd => v.locations
  }

  lemma DocumentsOfView(v: StoryView, texts: map<TextFile, string>)
    requires TextMd in texts && CharactersMd in texts && LocationsMd in texts
    requires v.text == texts[TextMd] && v.characters == texts[CharactersMd] && v.locations == texts[LocationsMd]
    ensures forall f :: f in texts && Document(v, f) == texts[f]
  {
    forall f ensures f in texts && Document(v, f) == texts[f] {
      match f
      case TextMd =>
      case CharactersMd =>
      case LocationsMd =>
    }
  }

  /** The public URL of an image as the read handler lists it. */
  function ImageUrl(key: string, c: Category, file: string, enc: string -> string): string
  {
    "/stories/" + key + "/images/" + CategoryName(c) + "/" + enc(file)
  }

  /** One URL per file, in listing order. */
  function ImageUrls(key: string, c: Category, files: seq<string>, enc: string -> string): (r: seq<string>)
    ensures |r| == |files|
    ensures forall i :: 0 <= i < |files| ==> r[i] == ImageUrl(key, c, files[i], enc)
  {
    if files == [] then [] else [ImageUrl(key, c, files[0], enc)] + ImageUrls(key, c, files[1..], enc)
  }

  /** The `images` object of the reply: no keys at all when the `images`
      directory is missing, otherwise every category, empty when its
      directory is missing. */
  function ImageLists(key: string, images: Option<map<Category, seq<string>>>, enc: string -> string): map<Category, seq<string>>
  {
    if images.None? then map[]
    else map c | c in AllCategories :: ImageUrls(key, c, if c in images.value then images.value[c] else [], enc)
  }

  /** An entry the read handler can answer from: a story directory whose
      three documents exist. */
  predicate Readable(e: Entry)
  {
    e.StoryDir? && TextMd in e.story.texts && CharactersMd in e.story.texts && LocationsMd in e.story.texts
  }

  /** `GET /api/stories/:name`: a missing entry is not found; an entry whose
      documents cannot be read is a storage error; otherwise the documents
      and the image URLs. Reading changes nothing. */
  function Read(root: Root, name: string, enc: string -> string): (r: Reply<StoryView>)
    ensures SafeName(name) !in root ==> r == Fail(NotFound("story not found"))
    ensures SafeName(name) in root && !Readable(root[SafeName(name)]) ==> r == Fail(StorageError)
    ensures r.Ok? <==> SafeName(name) in root && Readable(root[SafeName(name)])
    ensures r.Ok? ==>
      var s := root[SafeName(name)].story;
      && r.value.name == name
      && (forall f :: f in s.texts && Document(r.value, f) == s.texts[f])
      && (s.images.None? ==> r.value.images == map[])
      && (s.images.Some? ==>
            forall c :: c in r.value.images && r.value.images[c] == ImageUrls(SafeName(name), c, Listing(s, c), enc))
  {
    var key := SafeName(name);
    if key !in root then Fail(NotFound("story not found"))
    else if !Readable(root[key]) then Fail(StorageError)
    else
      var s := root[key].story;
      var v := StoryView(name, s.texts[TextMd], s.texts[CharactersMd], s.texts[LocationsMd], ImageLists(key, s.images, enc));
      DocumentsOfView(v, s.texts);
      EveryCategoryListed();
      Ok(v)
  }

  /** `POST /api/stories/:name/save {file, content}`: both fields must be
      truthy (so empty content is refused) and `file` one of the three
      documents, all before the story is looked up; the write replaces that
      one document and nothing else. Writing into a plain file fails. */
  function Save(root: Root, name: string, file: Option<string>, content: Option<string>): (r: Outcome<()>)
    ensures !Present(file) || !Present(content) ==>
      r == Outcome(root, Fail(BadRequest("file and content required")))
    ensures Present(file) && Present(content) && ParseTextFile(file.value).None? ==>
      r == Outcome(root, Fail(BadRequest("invalid file")))
    ensures Present(file) && Present(content) && ParseTextFile(file.value).Some? && SafeName(name) !in root ==>
      r == Outcome(root, Fail(NotFound("story not found")))
    ensures (Present(file) && Present(content) && ParseTextFile(file.value).Some?
             && SafeName(name) in root && root[SafeName(name)].OtherFile?) ==>
      r == Outcome(root, Fail(StorageError))
    ensures r.reply.Ok? <==>
      && Present(file) && Present(content) && ParseTextFile(file.value).Some?
      && SafeName(name) in root && root[SafeName(name)].StoryDir?
    ensures r.reply.Fail? ==> r.after == root
    ensures r.reply.Ok? ==>
      var key := SafeName(name);
      var f := ParseTextFile(file.value).value;
      var s := root[key].story;
      && key in r.after && r.after[key].StoryDir?
      && f in r.after[key].story.texts && r.after[key].story.texts[f] == content.value
      && r.after[key].story.texts - {f} == s.texts - {f}
      && r.after[key].story.images == s.images
      && SameExcept(root, r.after, key)
  {
    if !Present(file) || !Present(content) then
      Outcome(root, Fail(BadRequest("file and content required")))
    else match ParseTextFile(file.value)
      case None => Outcome(root, Fail(BadRequest("invalid file")))
      case Some(f) =>
        var key := SafeName(name);
        if key !in root then Outcome(root, Fail(NotFound("story not found")))
        else match root[key]
          case OtherFile => Outcome(root, Fail(StorageError))
          case StoryDir(s) =>
            Outcome(root[key := StoryDir(s.(texts := s.texts[f := content.value]))], Ok(()))
  }

  /** `DELETE /api/stories/:name`: a missing entry is not found; otherwise
      the whole entry goes and every other entry stays. */
  function Delete(root: Root, name: string): (r: Outcome<()>)
    ensures SafeName(name) !in root ==> r == Outcome(root, Fail(NotFound("story not found")))
    ensures SafeName(name) in root ==>
      && r.reply == Ok(())
      && r.after.Keys == root.Keys - {SafeName(name)}
      && (forall k :: k in r.after ==> r.after[k] == root[k])
  {
    var key := SafeName(name);
    if key !in root then Outcome(root, Fail(NotFound("story not found")))
    else Outcome(root - {key}, Ok(()))
  }

  /** A created story is listed and reads back with three empty documents
      and three empty image lists. */
  lemma CreateThenRead(root: Root, name: Option<string>, enc: string -> string)
    requires Present(name) && SafeName(name.value) !in root
    ensures var created := Create(root, name);
      && created.reply.Ok?
      && IsListed(created.after, created.reply.value)
      && var v := Read(created.after, created.reply.value, enc);
         && v.Ok?
         && (forall f :: Document(v.value, f) == "")
         && (forall c :: c in v.value.images && v.value.images[c] == [])
  {
    var created := Create(root, name);
    SafeNameIdempotent(name.value);
    EveryTextFileListed();
    var v := Read(created.after, created.reply.value, enc);
    forall f ensures Document(v.value, f) == "" {
      assert EmptyStory.texts[f] == "";
    }
  }

  /** Creating a story and deleting it again restores the root. */
  lemma CreateThenDelete(root: Root, name: Option<string>)
    requires Create(root, name).reply.Ok?
    ensures Delete(Create(root, name).after, name.value) == Outcome(root, Ok(()))
  {
    var after := Create(root, name).after;
    var key := SafeName(name.value);
    assert after - {key} == root;
  }

  /** Write-then-read: after a successful save, reading the story answers
      the saved content for that document and what it answered before for
      everything else. */
  lemma SaveThenRead(root: Root, name: string, f: TextFile, content: string, enc: string -> string)
    requires content != ""
    requires Read(root, name, enc).Ok?
    ensures var saved := Save(root, name, Some(TextFileName(f)), Some(content));
      && saved.reply.Ok?
      && var v := Read(saved.after, name, enc);
         && v.Ok?
         && Document(v.value, f) == content
         && (forall g :: g != f ==> Document(v.value, g) == Document(Read(root, name, enc).value, g))
         && v.value.images == Read(root, name, enc).value.images
  {
    var key := SafeName(name);
    assert ParseTextFile(TextFileName(f)) == Some(f);
    var s := root[key].story;
    var t := s.(texts := s.texts[f := content]);
    var saved := Save(root, name, Some(TextFileName(f)), Some(content));
    assert saved.after == root[key := StoryDir(t)];
  }

  /** The last save wins: saving twice to the same document is the same as
      saving only the second content. */
  lemma SaveTwiceLastWins(root: Root, name: string, file: Option<string>, c1: Option<string>, c2: Option<string>)
    requires Save(root, name, file, c1).reply.Ok?
    requires Present(c2)
    ensures Save(Save(root, name, file, c1).after, name, file, c2) == Save(root, name, file, c2)
  {
    var key := SafeName(name);
    var f := ParseTextFile(file.value).value;
    var s := root[key].story;
    assert s.texts[f := c1.value][f := c2.value] == s.texts[f := c2.value];
  }

  /** Rename moves content, not a copy: the old name no longer reads, the new
      name reads the same documents the old one did, and the stored entry is
      the same. */
  lemma RenameThenRead(root: Root, oldName: string, newName: string, enc: string -> string)
    requires Rename(root, oldName, Some(newName)).reply.Ok?
    ensures var after := Rename(root, oldName, Some(newName)).after;
      && Read(after, oldName, enc) == Fail(NotFound("story not found"))
      && (Read(after, newName, enc).Ok? <==> Read(root, oldName, enc).Ok?)
      && (Read(root, oldName, enc).Ok? ==> forall f ::
            Document(Read(after, newName, enc).value, f) == Document(Read(root, oldName, enc).value, f))
  {
  }

  /** Renaming back restores the root exactly. */
  lemma RenameBack(root: Root, a: string, b: string)
    requires a != ""
    requires Rename(root, a, Some(b)).reply.Ok?
    ensures Rename(Rename(root, a, Some(b)).after, b, Some(a)) == Outcome(root, Ok(a))
  {
    var from := SafeName(a);
    var to := SafeName(b);
    var after := Rename(root, a, Some(b)).after;
    var back := Rename(after, b, Some(a));
    assert back.after == root;
  }

  /** Names that sanitize to the same key conflict: a story cannot be
      renamed onto itself. */
  lemma RenameOntoSameKeyConflicts(root: Root, a: string, b: string)
    requires b != "" && SafeName(a) == SafeName(b) && SafeName(a) in root
    ensures Rename(root, a, Some(b)) == Outcome(root, Fail(Conflict("target name already exists")))
  {
  }

  /** After a delete the name is neither listed nor readable. */
  lemma DeleteThenRead(root: Root, name: string, enc: string -> string)
    requires SafeName(name) in root
    ensures var after := Delete(root, name).after;
      && !IsListed(after, SafeName(name))
      && Read(after, name, enc) == Fail(NotFound("story not found"))
  {
  }

  /** Creating `a/b?c` creates the story `a-b-c`: no slash survives. */
  lemma CreateSanitizesName()
    ensures Create(map[], Some("a/b?c")).reply == Ok("a-b-c")
  {
    assert SafeName("a/b?c") == "a-b-c";
  }

  /** Create "My Story", save its text, read it back. */
  lemma CreateSaveReadScenario(enc: string -> string)
    ensures var created := Create(map[], Some("My Story"));
      && created.reply == Ok("My Story")
      && IsListed(created.after, "My Story")
      && var saved := Save(created.after, "My Story", Some("text.md"), Some("Once upon a time"));
         && saved.reply == Ok(())
         && Read(saved.after, "My Story", enc).Ok?
         && Read(saved.after, "My Story", enc).value.text == "Once upon a time"
  {
    var name := "My Story";
    MyStoryIsClean();
    CreateThenRead(map[], Some(name), enc);
    var created := Create(map[], Some(name));
    assert created.reply == Ok(name);
    SaveThenRead(created.after, name, TextMd, "Once upon a time", enc);
  }

  lemma MyStoryIsClean()
    ensures SafeName("My Story") == "My Story"
  {
    var s := "My Story";
    assert s == ['M', 'y', ' ', 'S', 't', 'o', 'r', 'y'];
    assert Clean(s) by {
      forall i | 0 <= i < |s| ensures s[i] !in Reserved {
        assert 'A' <= s[i] <= 'z' || s[i] == ' ';
      }
    }
    SafeNameFixesExactlyClean(s);
  }
}

=== FILE: segments.dfy ===
/** Joining path segments with a separator and splitting them apart again,
    as `path.join(...).split(path.sep)` and `.join('/')` do on POSIX. */
module Segments {

  /** `xs.join(sep)`: the segments with one separator between neighbours. */
  function Join(xs: seq<string>, sep: char): string
  {
    if |xs| == 0 then ""
    else if |xs| == 1 then xs[0]
    else xs[0] + [sep] + Join(xs[1..], sep)
  }

  /** The position of the first `c` in `s`. */
  function IndexOf(s: string, c: char): (i: nat)
    requires c in s
    ensures i < |s| && s[i] == c
    ensures c !in s[..i]
  {
    if s[0] == c then 0 else 1 + IndexOf(s[1..], c)
  }

  /** `s.split(sep)`: the maximal separator-free pieces, in order. */
  function Split(s: string, sep: char): (r: seq<string>)
    ensures |r| > 0
    ensures forall k :: 0 <= k < |r| ==> sep !in r[k]
    ensures Join(r, sep) == s
    decreases |s|
  {
    if sep in s then
      var i := IndexOf(s, sep);
      var rest := Split(s[i + 1..], sep);
      assert ([s[..i]] + rest)[1..] == rest;
      assert s == s[..i] + [sep] + s[i + 1..];
      [s[..i]] + rest
    else [s]
  }

  /** `xs.map(f)`. */
  function Map(f: string -> string, xs: seq<string>): (r: seq<string>)
    ensures |r| == |xs|
    ensures forall k :: 0 <= k < |xs| ==> r[k] == f(xs[k])
  {
    if xs == [] then [] else [f(xs[0])] + Map(f, xs[1..])
  }

  /** A separator-free piece followed by a separator splits off first. */
  lemma SplitCons(x: string, rest: string, sep: char)
    requires sep !in x
    ensures Split(x + [sep] + rest, sep) == [x] + Split(rest, sep)
  {
    var s := x + [sep] + rest;
    assert s[|x|] == sep;
    assert s[..|x|] == x;
    var i := IndexOf(s, sep);
    assert i == |x|;
    assert s[i + 1..] == rest;
  }

  /** Splitting a join of separator-free segments gives the segments back. */
  lemma {:induction false} SplitJoin(xs: seq<string>, sep: char)
    requires |xs| > 0
    requires forall k :: 0 <= k < |xs| ==> sep !in xs[k]
    ensures Split(Join(xs, sep), sep) == xs
  {
    if |xs| > 1 {
      SplitCons(xs[0], Join(xs[1..], sep), sep);
      SplitJoin(xs[1..], sep);
      assert xs == [xs[0]] + xs[1..];
    }
  }
}

=== FILE: store.dfy ===
/** The story store: the storage root seen as a map from directory name to
    entry, the layout of one story directory, and `ensureStoryStructure`. */
module Store {
  import opened Replies
  import opened Names

  /** The three text documents of a story. */
  datatype TextFile = TextMd | CharactersMd | LocationsMd

  const AllTextFiles: set<TextFile> := {TextMd, CharactersMd, LocationsMd}

  /** The on-disk file name of a text document. */
  function TextFileName(f: TextFile): string
  {
    match f
    case TextMd => "text.md"
    case CharactersMd => "characters.md"
    case LocationsMd => "locations.md"
  }

  /** Recognises a client-supplied file name as one of the three documents. */
  function ParseTextFile(s: string): (r: Option<TextFile>)
    ensures forall f :: r == Some(f) <==> TextFileName(f) == s
  {
    if s == "text.md" then Some(TextMd)
    else if s == "characters.md" then Some(CharactersMd)
    else if s == "locations.md" then Some(LocationsMd)
    else None
  }

  lemma EveryTextFileListed()
    ensures forall f :: f in AllTextFiles
  {
    forall f ensures f in AllTextFiles {
      match f
      case TextMd =>
      case CharactersMd =>
      case LocationsMd =>
    }
  }

  /** The three image categories, each a subdirectory of `images/`. */
  datatype Category = CharactersImages | LocationsImages | TextImages

  const AllCategories: set<Category> := {CharactersImages, LocationsImages, TextImages}

  /** The directory name of an image category. */
  function CategoryName(c: Category): string
  {
    match c
    case CharactersImages => "characters"
    case LocationsImages => "locations"
    case TextImages => "text"
  }

  lemma EveryCategoryListed()
    ensures forall c :: c in AllCategories
  {
    forall c ensures c in AllCategories {
      match c
      case CharactersImages =>
      case LocationsImages =>
      case TextImages =>
    }
  }

  /** Recognises a client-supplied category name. */
  function ParseCategory(s: string): (r: Option<Category>)
    ensures forall c :: r == Some(c) <==> CategoryName(c) == s
  {
    if s == "characters" then Some(CharactersImages)
    else if s == "locations" then Some(LocationsImages)
    else if s == "text" then Some(TextImages)
    else None
  }

  /** The contents of one story directory. A text document that does not
      exist has no key in `texts`; `images` is None when the `images`
      directory is missing, and otherwise maps each existing category
      directory to its file names in listing order. */
  datatype Story = Story(texts: map<TextFile, string>, images: Option<map<Category, seq<string>>>)

  /** An entry of the storage root: a story directory, or some other file
      that happens to sit there. */
  datatype Entry = StoryDir(story: Story) | OtherFile

  /** The storage root: entry name to entry. */
  type Root = map<string, Entry>

  /** A story directory just created by `mkdir`, holding nothing yet. */
  const BareStory: Story := Story(map[], None)

  /** A freshly created story: three empty documents, three empty categories. */
  const EmptyStory: Story := Story(
    map[TextMd := "", CharactersMd := "", LocationsMd := ""],
    Some(map[CharactersImages := [], LocationsImages := [], TextImages := []]))

  /** The names of the files of category `c` of a story (none when the
      category directory is missing). */
  function Listing(s: Story, c: Category): seq<string>
  {
    if s.images.Some? && c in s.images.value then s.images.value[c] else []
  }

  /** The canonical layout: every document and every category directory exists. */
  predicate Complete(s: Story)
  {
    && (forall f :: f in s.texts)
    && s.images.Some?
    && (forall c :: c in s.images.value)
  }

  /** `t` keeps every document and every image directory of `s` as it was. */
  predicate Extends(s: Story, t: Story)
  {
    && (forall f :: f in s.texts ==> f in t.texts && t.texts[f] == s.texts[f])
    && (s.images.Some? ==> t.images.Some?)
    && (s.images.Some? ==> forall c :: c in s.images.value ==>
          c in t.images.value && t.images.value[c] == s.images.value[c])
  }

  /** The story after `ensureStoryStructure` has created what was missing. */
  function Filled(s: Story): (r: Story)
    ensures Complete(r)
    ensures Extends(s, r)
    ensures forall f :: f !in s.texts ==> r.texts[f] == ""
    ensures forall c :: Listing(s, c) == Listing(r, c)
  {
    var texts := map f | f in AllTextFiles :: if f in s.texts then s.texts[f] else "";
    var dirs := map c | c in AllCategories :: Listing(s, c);
    EveryTextFileListed();
    EveryCategoryListed();
    Story(texts, Some(dirs))
  }

  /** The layout step changes nothing in a story that is already complete,
      and only such stories. */
  lemma FilledFixesExactlyComplete(s: Story)
    ensures Filled(s) == s <==> Complete(s)
  {
    if Complete(s) {
      var r := Filled(s);
      assert r.texts == s.texts;
      assert r.images.value == s.images.value;
    }
  }

  /** Repeating the layout step changes nothing more. */
  lemma FilledIdempotent(s: Story)
    ensures Filled(Filled(s)) == Filled(s)
  {
    FilledFixesExactlyComplete(Filled(s));
  }

  /** The layout step on a bare directory yields the empty story. */
  lemma FilledBareIsEmpty()
    ensures Filled(BareStory) == EmptyStory
  {
    var r := Filled(BareStory);
    assert r.texts == EmptyStory.texts;
    assert r.images.value == EmptyStory.images.value;
  }

  /** The story currently stored under `key`, or a bare directory when
      there is none (what `mkdirSync` leaves behind). */
  function StoryAt(root: Root, key: string): Story
    requires key !in root || root[key].StoryDir?
  {
    if key in root then root[key].story else BareStory
  }

  /** `after` differs from `before` at most under `key`. */
  predicate SameExcept(before: Root, after: Root, key: string)
  {
    before - {key} == after - {key}
  }

  /** Storing an entry under `key` changes the root only under `key`. */
  lemma UpdateIsSameExcept(root: Root, key: string, e: Entry)
    ensures SameExcept(root, root[key := e], key)
  {
    assert root[key := e] - {key} == root - {key};
  }

  /** `ensureStoryStructure(name)`: under the sanitized name, create the
      directory, the missing documents (empty) and the missing category
      directories, never touching what already exists. Writing into a plain
      file fails with a storage error. */
  function EnsureStoryStructure(root: Root, name: string): (r: Reply<Root>)
    ensures var key := SafeName(name);
      r.Fail? <==> key in root && root[key].OtherFile?
    ensures var key := SafeName(name);
      r.Ok? ==> && key in r.value && r.value[key].StoryDir?
                && Complete(r.value[key].story)
                && Extends(StoryAt(root, key), r.value[key].story)
                && (forall f :: f !in StoryAt(root, key).texts ==> r.value[key].story.texts[f] == "")
                && (forall c :: Listing(r.value[key].story, c) == Listing(StoryAt(root, key), c))
                && SameExcept(root, r.value, key)
  {
    var key := SafeName(name);
    if key in root && root[key].OtherFile? then Fail(StorageError)
    else Ok(root[key := StoryDir(Filled(StoryAt(root, key)))])
  }

  /** Running `ensureStoryStructure` twice is running it once. */
  lemma EnsureStoryStructureIdempotent(root: Root, name: string)
    ensures var once := EnsureStoryStructure(root, name);
      once.Ok? ==> EnsureStoryStructure(once.value, name) == once
  {
    var once := EnsureStoryStructure(root, name);
    if once.Ok? {
      var key := SafeName(name);
      FilledIdempotent(StoryAt(root, key));
      assert once.value[key := once.value[key]] == once.value;
    }
  }
}

=== FILE: uploads.dfy ===
/** Image uploads (`POST /api/stories/:name/images`): the category the file
    lands in, the name it is stored under, the directory it is written to,
    and the public URL the handler answers with. The multipart parsing is
    abstracted to "a file with this original name arrived". */
module Uploads {
  import opened Replies
  import opened Names
  import opened Decimal
  import opened Segments
  import opened Store
  import opened Routes

  /** The `type` form field picks the category when it names one; anything
      else, including no field at all, falls back to `text`. */
  function UploadCategory(kind: Option<string>): (c: Category)
    ensures forall d :: kind == Some(CategoryName(d)) ==> c == d
    ensures c != TextImages ==> kind == Some(CategoryName(c))
  {
    if kind.Some? && ParseCategory(kind.value).Some? then ParseCategory(kind.value).value else TextImages
  }

  /** The name a file is stored under: the timestamp in decimal, a hyphen,
      and the base name of the original name with reserved characters
      replaced. */
  function StoredFilename(now: nat, original: string): (r: string)
    ensures Clean(r)
  {
    var d := Dec(now);
    NumeralIsClean(d);
    CleanConcat(d, "-");
    CleanConcat(d + "-", SafeName(Basename(original)));
    d + "-" + SafeName(Basename(original))
  }

  lemma NumeralIsClean(d: string)
    requires forall i :: 0 <= i < |d| ==> IsDigit(d[i])
    ensures Clean(d)
  {
  }

  lemma CleanConcat(a: string, b: string)
    requires Clean(a) && Clean(b)
    ensures Clean(a + b)
  {
    forall i | 0 <= i < |a + b| ensures (a + b)[i] !in Reserved {
      if i >= |a| {
        assert (a + b)[i] == b[i - |a|];
      }
    }
  }

  /** A hyphen cannot occur inside a numeral, so the timestamp a stored name
      starts with is determined by the name. */
  lemma {:induction false} TimestampPrefixUnique(a: nat, b: nat, x: string, y: string)
    requires Dec(a) + "-" + x == Dec(b) + "-" + y
    ensures a == b
  {
    var da, db := Dec(a), Dec(b);
    var s, t := da + "-" + x, db + "-" + y;
    assert s[|da|] == '-' && t[|db|] == '-';
    assert forall k :: 0 <= k < |da| ==> s[k] == da[k];
    assert forall k :: 0 <= k < |db| ==> t[k] == db[k];
    assert |da| == |db|;
    assert da == s[..|da|] == t[..|db|] == db;
    if a != b {
      DecInjective(a, b);
    }
  }

  /** Uploads at distinct instants never share a stored name, whatever the
      original names: neither overwrites the other. */
  lemma StoredFilenamesDistinct(t1: nat, t2: nat, a: string, b: string)
    requires t1 != t2
    ensures StoredFilename(t1, a) != StoredFilename(t2, b)
  {
    if StoredFilename(t1, a) == StoredFilename(t2, b) {
      TimestampPrefixUnique(t1, t2, SafeName(Basename(a)), SafeName(Basename(b)));
    }
  }

  /** The story directory after `mkdirSync(dest, {recursive: true})` for
      `images/<c>`: the `images` and category directories exist, nothing
      that existed changed. */
  function WithCategoryDir(s: Story, c: Category): (r: Story)
    ensures r.texts == s.texts
    ensures r.images.Some? && c in r.images.value
    ensures forall d :: Listing(r, d) == Listing(s, d)
    ensures s.images.Some? ==> forall d :: d in s.images.value ==> d in r.images.value
  {
    var dirs := if s.images.Some? then s.images.value else map[];
    s.(images := Some(dirs[c := Listing(s, c)]))
  }

  /** The category directory after the file is written: a new name joins
      the listing at the end; a name already there is overwritten in place. */
  function AddImage(s: Story, c: Category, stored: string): (r: Story)
    requires s.images.Some? && c in s.images.value
    ensures stored in Listing(r, c)
    ensures Listing(s, c) <= Listing(r, c)
    ensures |Listing(r, c)| <= |Listing(s, c)| + 1
    ensures forall x :: x in Listing(r, c) <==> x in Listing(s, c) || x == stored
    ensures stored in Listing(s, c) ==> Listing(r, c) == Listing(s, c)
    ensures forall d :: d != c ==> Listing(r, d) == Listing(s, d)
    ensures r.texts == s.texts
    ensures r.images.Some? && r.images.value.Keys == s.images.value.Keys
  {
    var files := s.images.value[c];
    if stored in files then s else s.(images := Some(s.images.value[c := files + [stored]]))
  }

  /** A story directory after an upload into category `c`. */
  function Uploaded(before: Story, c: Category, stored: string): (s: Story)
    ensures stored in Listing(s, c)
    ensures Listing(before, c) <= Listing(s, c)
    ensures |Listing(s, c)| <= |Listing(before, c)| + 1
    ensures forall x :: x in Listing(s, c) <==> x in Listing(before, c) || x == stored
    ensures stored in Listing(before, c) ==> Listing(s, c) == Listing(before, c)
    ensures forall d :: d != c ==> Listing(s, d) == Listing(before, d)
    ensures s.texts == before.texts
  {
    AddImage(WithCategoryDir(before, c), c, stored)
  }

  /** The path of the stored file relative to the storage root, prefixed
      with the `stories` mount point, as segments. */
  function UploadSegments(key: string, c: Category, stored: string): seq<string>
  {
    ["stories", key, "images", CategoryName(c), stored]
  }

  /** The handler's URL: the relative path is joined, split at the
      separator, each segment encoded on its own, and the encoded segments
      joined with `/` after a leading `/`. */
  function UploadUrl(key: string, c: Category, stored: string, enc: string -> string): string
  {
    "/" + Join(Map(enc, Split(Join(UploadSegments(key, c, stored), '/'), '/')), '/')
  }

  /** When neither the story key nor the stored name holds a separator, the
      URL is exactly the five encoded segments joined with `/`. */
  lemma UploadUrlSegments(key: string, c: Category, stored: string, enc: string -> string)
    requires '/' !in key && '/' !in stored
    ensures UploadUrl(key, c, stored, enc) == "/" + Join(Map(enc, UploadSegments(key, c, stored)), '/')
  {
    var segs := UploadSegments(key, c, stored);
    assert forall k :: 0 <= k < |segs| ==> '/' !in segs[k];
    SplitJoin(segs, '/');
  }

  /** When the encoder leaves the fixed segments and the story key alone,
      the URL the upload answers is the URL the read handler lists for the
      same file. */
  lemma UploadUrlMatchesListing(key: string, c: Category, stored: string, enc: string -> string)
    requires '/' !in key && '/' !in stored
    requires enc("stories") == "stories" && enc("images") == "images"
    requires enc(CategoryName(c)) == CategoryName(c) && enc(key) == key
    ensures UploadUrl(key, c, stored, enc) == ImageUrl(key, c, stored, enc)
  {
    UploadUrlSegments(key, c, stored, enc);
    EncodedSegments(key, c, stored, enc);
    JoinFive("stories", key, "images", CategoryName(c), enc(stored));
  }

  lemma EncodedSegments(key: string, c: Category, stored: string, enc: string -> string)
    requires enc("stories") == "stories" && enc("images") == "images"
    requires enc(CategoryName(c)) == CategoryName(c) && enc(key) == key
    ensures Map(enc, UploadSegments(key, c, stored)) == ["stories", key, "images", CategoryName(c), enc(stored)]
  {
  }

  /** Five segments joined with `/`. */
  lemma JoinFive(a: string, b: string, c: string, d: string, e: string)
    ensures Join([a, b, c, d, e], '/') == a + "/" + b + "/" + c + "/" + d + "/" + e
  {
    assert Join([e], '/') == e;
    assert [d, e][1..] == [e];
    assert Join([d, e], '/') == d + "/" + e;
    assert [c, d, e][1..] == [d, e];
    assert Join([c, d, e], '/') == c + "/" + (d + "/" + e);
    assert [b, c, d, e][1..] == [c, d, e];
    assert Join([b, c, d, e], '/') == b + "/" + (c + "/" + (d + "/" + e));
    assert [a, b, c, d, e][1..] == [b, c, d, e];
  }

  /** `POST /api/stories/:name/images`: with no file the reply is a bad
      request; otherwise the category directory is created under the
      sanitized name (creating the story directory itself when it is
      missing), the file is stored under its timestamped name, and the reply
      is its public URL. A plain file in the way makes the directory
      creation fail. */
  function Upload(root: Root, name: string, kind: Option<string>, original: Option<string>,
                  now: nat, enc: string -> string): (r: Outcome<string>)
    ensures original.None? ==> r == Outcome(root, Fail(BadRequest("no file uploaded")))
    ensures original.Some? && SafeName(name) in root && root[SafeName(name)].OtherFile? ==>
      r == Outcome(root, Fail(StorageError))
    ensures r.reply.Ok? <==> original.Some? && !(SafeName(name) in root && root[SafeName(name)].OtherFile?)
    ensures r.reply.Ok? ==>
      var key := SafeName(name);
      var c := UploadCategory(kind);
      var stored := StoredFilename(now, original.value);
      var before := StoryAt(root, key);
      && r.reply.value == UploadUrl(key, c, stored, enc)
      && key in r.after && r.after[key].StoryDir?
      && var s := r.after[key].story;
         && stored in Listing(s, c)
         && Listing(before, c) <= Listing(s, c)
         && |Listing(s, c)| <= |Listing(before, c)| + 1
         && (forall x :: x in Listing(s, c) <==> x in Listing(before, c) || x == stored)
         && (stored in Listing(before, c) ==> Listing(s, c) == Listing(before, c))
         && (forall d :: d != c ==> Listing(s, d) == Listing(before, d))
         && s.texts == before.texts
         && SameExcept(root, r.after, key)
  {
    if original.None? then Outcome(root, Fail(BadRequest("no file uploaded")))
    else
      var key := SafeName(name);
      if key in root && root[key].OtherFile? then Outcome(root, Fail(StorageError))
      else
        var c := UploadCategory(kind);
        var stored := StoredFilename(now, original.value);
        UpdateIsSameExcept(root, key, StoryDir(Uploaded(StoryAt(root, key), c, stored)));
        Outcome(root[key := StoryDir(Uploaded(StoryAt(root, key), c, stored))], Ok(UploadUrl(key, c, stored, enc)))
  }

  /** Two uploads of the same original name at distinct instants both stay
      in the category, under distinct names. */
  lemma UploadTwiceKeepsBoth(root: Root, name: string, kind: Option<string>, original: string,
                             t1: nat, t2: nat, enc: string -> string)
    requires t1 != t2
    requires !(SafeName(name) in root && root[SafeName(name)].OtherFile?)
    ensures var first := Upload(root, name, kind, Some(original), t1, enc);
      var second := Upload(first.after, name, kind, Some(original), t2, enc);
      var key := SafeName(name);
      var c := UploadCategory(kind);
      && second.reply.Ok?
      && StoredFilename(t1, original) != StoredFilename(t2, original)
      && StoredFilename(t1, original) in Listing(second.after[key].story, c)
      && StoredFilename(t2, original) in Listing(second.after[key].story, c)
  {
    StoredFilenamesDistinct(t1, t2, original, original);
    var key := SafeName(name);
    var c := UploadCategory(kind);
    var first := Upload(root, name, kind, Some(original), t1, enc);
    KeptAfterUpload(first.after, name, kind, original, t2, enc, StoredFilename(t1, original));
  }

  /** A file listed in the category before an upload is still listed after it. */
  lemma KeptAfterUpload(root: Root, name: string, kind: Option<string>, original: string,
                        now: nat, enc: string -> string, file: string)
    requires SafeName(name) in root && root[SafeName(name)].StoryDir?
    requires file in Listing(root[SafeName(name)].story, UploadCategory(kind))
    ensures var up := Upload(root, name, kind, Some(original), now, enc);
      && up.reply.Ok?
      && file in Listing(up.after[SafeName(name)].story, UploadCategory(kind))
  {
    var key := SafeName(name);
    var c := UploadCategory(kind);
    var before := Listing(root[key].story, c);
    assert StoryAt(root, key) == root[key].story;
    var after := Listing(Upload(root, name, kind, Some(original), now, enc).after[key].story, c);
    var i :| 0 <= i < |before| && before[i] == file;
    assert before <= after;
    assert after[i] == file;
  }

  /** An upload into a readable story is listed by the next read, under the
      URL the read handler builds for the stored file. */
  lemma UploadThenRead(root: Root, name: string, kind: Option<string>, original: string,
                       now: nat, enc: string -> string)
    requires Read(root, name, enc).Ok?
    ensures var up := Upload(root, name, kind, Some(original), now, enc);
      var c := UploadCategory(kind);
      && up.reply.Ok?
      && Read(up.after, name, enc).Ok?
      && c in Read(up.after, name, enc).value.images
      && ImageUrl(SafeName(name), c, StoredFilename(now, original), enc) in Read(up.after, name, enc).value.images[c]
  {
    var up := Upload(root, name, kind, Some(original), now, enc);
    var key := SafeName(name);
    var c := UploadCategory(kind);
    var stored := StoredFilename(now, original);
    var s := up.after[key].story;
    assert Readable(up.after[key]);
    var urls := Read(up.after, name, enc).value.images[c];
    assert urls == ImageUrls(key, c, Listing(s, c), enc);
    var i :| 0 <= i < |Listing(s, c)| && Listing(s, c)[i] == stored;
    assert urls[i] == ImageUrl(key, c, stored, enc);
  }

  /** An upload to a story that does not exist creates its directory without
      the documents: the name is listed from then on, but reading it fails
      with a storage error. */
  lemma UploadToMissingStory(root: Root, name: string, kind: Option<string>, original: string,
                             now: nat, enc: string -> string)
    requires SafeName(name) !in root
    ensures var up := Upload(root, name, kind, Some(original), now, enc);
      && up.reply.Ok?
      && IsListed(up.after, SafeName(name))
      && Read(up.after, name, enc) == Fail(StorageError)
  {
  }
}
